=== FILE: README.md ===
# IR letter editor — Dafny model

A model of the document core of a small React editor for investor-relations
letters. The user edits one letter record in a form. A preview renders the
letter with two charts. A language switch can replace the letter with a
machine-translated copy.

The model keeps the parts with behaviour worth stating:

- **Letter record** (`Types`, types.ts). These are immutable datatypes: `Letter`, `Performance`, `Indicator` and `Highlight`.
- **Whole-field replacement** (`Fields`, `handleUpdateData` in App.tsx). This is a get/put lens over the eight top-level keys.
- **Row helpers** (`Rows`, `updatePerformance` / `updateIndicator` / `updateHighlight` in components/Editor.tsx). Each helper shallow-merges one cell into one row, then writes the whole sequence back.
- **Text-area binding** (`TextLines`). A list of lines is shown joined with `'\n'`. The edited text is stored split on `'\n'`. This is JavaScript's `join` and `split`, including `"".split("\n") == [""]`.
- **Edit form** (`Editor`). This covers what each control displays, the change events the controls can emit, and how each event becomes a new letter.
- **Application state** (`App`, App.tsx). The state is the letter, the language mode `KOR`/`ENG` and the translation-in-progress flag. Translation is split into a begin phase and a finish phase. A finished translation gets the external service's outcome as a parameter: `Some(letter)` for a parsed response, `None` for a thrown error. The `Run` function gives runs of atomic user actions.
- **Preview** (`Preview`, components/Preview.tsx). The preview is an abstract layout, not pixels. It has the summary lines tagged heading or detail, one card per highlight, the full irSupport list and the first six irAction lines. It also keeps the data, keys, series and y-domain that are handed to the two charts.
- **Seed letter** (`Seed`, `Scenarios`; constants.tsx). This is the start-up letter, with concrete facts and scenarios about it.

Numbers are JavaScript numbers in the source. Here they are `real`, and no arithmetic is done on them.

`switchToKorean` follows the code of this revision: it only sets the mode back to `KOR`. The letter is left as it is, so translated content stays on screen (App.tsx:51-55). Other revisions of the program restore the Korean seed letter on switching back. This revision does not; its comment only mentions restoring as an option. `App.SwitchBackKeepsTranslation` states what this revision's code does.

## Model

| member | source | states |
|---|---|---|
| Fields.Get | types.ts:23-32 | reading any of the eight keys yields a value of that key's declared kind (text, line list, or row list) |
| Fields.EightFields | types.ts:23-32 | the key type enumerates exactly the eight declared fields of the letter, and each field of any letter holds a value of its kind |
| Fields.FieldsDetermineLetter | types.ts:23-32 | two letters that agree on all eight keys are equal (no hidden field) |
| Fields.Update | App.tsx:15-17 | the updated letter holds the new value at the key and equals the old letter at every other key |
| Fields.UpdateWithCurrentValue | App.tsx:15-17 | writing a field's current value back leaves the letter unchanged |
| Fields.UpdateLastWins | App.tsx:15-17 | of two writes to the same key, the later one wins |
| Fields.UpdatesCommute | App.tsx:15-17 | writes to different keys commute |
| Rows.PerformanceCell | types.ts:2-7 | the quarter cell of a performance row is text and the three figure cells are numbers |
| Rows.PerformanceCellsDetermineRow | types.ts:2-7 | a performance row is fully given by its quarter label and three figures |
| Rows.SetPerformanceCell | components/Editor.tsx:20 | the shallow merge sets the chosen cell and keeps the other three |
| Rows.UpdatePerformance | components/Editor.tsx:18-22 | the length is kept; row i gets the value in the chosen field and keeps its other fields; every other row and every other top-level field is unchanged |
| Rows.UpdatePerformanceWithCurrentValue | components/Editor.tsx:18-22 | writing back the value a cell already holds leaves the letter unchanged |
| Rows.IndicatorCell | types.ts:9-15 | the quarter cell of an indicator row is text and the four ratio cells are numbers |
| Rows.IndicatorCellsDetermineRow | types.ts:9-15 | an indicator row is fully given by its quarter label and four ratios |
| Rows.SetIndicatorCell | components/Editor.tsx:26 | the shallow merge sets the chosen cell and keeps the other four |
| Rows.UpdateIndicator | components/Editor.tsx:24-28 | gives the same isolation and length preservation for the indicator table |
| Rows.UpdateIndicatorWithCurrentValue | components/Editor.tsx:24-28 | writing back the value a cell already holds leaves the letter unchanged |
| Rows.HighlightCell | types.ts:17-21 | a card's title and subtitle are single texts and its details are one line list |
| Rows.HighlightCellsDetermineCard | types.ts:17-21 | a card is fully given by its title, its subtitle and its details |
| Rows.SetHighlightCell | components/Editor.tsx:14 | the shallow merge sets the chosen part and keeps the others; details are replaced wholesale |
| Rows.UpdateHighlight | components/Editor.tsx:12-16 | gives the same isolation and length preservation for the highlight cards |
| Rows.UpdateHighlightWithCurrentValue | components/Editor.tsx:12-16 | writing back the value a card already holds leaves the letter unchanged |
| TextLines.Split | components/Editor.tsx:58 | splitting yields one more line than the text has newlines, and no line contains a newline |
| TextLines.Join | components/Editor.tsx:57 | joining a non-empty list of newline-free lines gives a text with exactly one newline fewer than there are lines |
| TextLines.JoinSplit | components/Editor.tsx:57-58 | for every text, joining the split lines gives the text back |
| TextLines.SplitJoin | components/Editor.tsx:92-98 | a non-empty list of newline-free lines survives join-then-split unchanged |
| TextLines.SplitSingleIff | components/Editor.tsx:58 | a text is stored as the single line it shows iff it holds no newline |
| TextLines.EmptyListComesBackAsOneEmptyLine | components/Editor.tsx:57-58 | the empty list displays as the empty text, which is stored back as `[""]` |
| Editor.FormOf | components/Editor.tsx:65-84 | the form has exactly one input row per performance row and one input card per highlight |
| Editor.CardInputsOf | components/Editor.tsx:80-82 | a card's title and subtitle inputs show them as they are, and its details text area, split again, gives back any non-empty newline-free details list |
| Editor.Issuable | components/Editor.tsx:65-84 | an event can be emitted exactly when its performance row or card index is within the letter's table, with text from the quarter input and numbers from the figure inputs |
| Editor.Shows | components/Editor.tsx:44-98 | the control that emitted an event displays that event's value; `Editor.Apply` guarantees this after every edit |
| Editor.HighlightInput | components/Editor.tsx:80-82 | the title and subtitle inputs store the entered text as it is; the details text area stores a newline-free list with one line per newline plus one, which joins back to the entered text |
| Editor.Apply | components/Editor.tsx:44-98 | after an edit, the control that emitted it displays exactly the entered value; only the event's own top-level field changes; row and card counts are kept |
| Editor.TextAreaStoresLines | components/Editor.tsx:55-98 | each of the four text areas (summary, card details, irSupport, irAction) stores one line per newline plus one, and no stored line contains a newline |
| Editor.ClearingStoresOneEmptyLine | components/Editor.tsx:55-98 | clearing the summary, irSupport or irAction text area of any letter, or the details text area of any existing card, stores `[""]`, never the empty list |
| Editor.EditsLeaveIndicatorsAlone | components/Editor.tsx:37-103 | no control of this form's revision changes the indicator table |
| Editor.EchoIsNoOp | components/Editor.tsx:44-98 | re-submitting the value a control already displays leaves a letter with non-empty newline-free lists unchanged |
| Editor.ApplyKeepsStable | components/Editor.tsx:55-98 | edits keep every text-area list non-empty and newline-free |
| Editor.EmptySummaryIsNotStable | components/Editor.tsx:57-58 | an empty summary list comes back as `[""]` when its text is re-submitted |
| App.LeftPane | App.tsx:105-115 | the edit form is shown exactly when no translation runs; otherwise the loading view is shown |
| App.TranslateEnabled | App.tsx:78 | the ENG button is enabled exactly when the edit form is shown |
| App.Edit | App.tsx:114 | an edit keeps language and flag, and the form still shows and displays the entered value |
| App.BeginTranslation | App.tsx:23-25 | in `ENG` the action does nothing; in `KOR` the flag is raised and the loading view replaces the form, with the letter untouched |
| App.FinishTranslation | App.tsx:40-48 | the flag is cleared in both outcomes; a parsed letter replaces the document and sets `ENG`; an error keeps letter and mode and raises an alert |
| App.Translate | App.tsx:23-49 | translating in `ENG` is a no-op; from `KOR` the flag ends cleared; a parsed reply becomes the letter, sets `ENG` and raises no notice; a failed call keeps the letter and mode and raises the error alert |
| App.SwitchToKorean | App.tsx:51-55 | the mode ends `KOR`, and the letter and flag are unchanged |
| App.InitialShowsSeedForm | App.tsx:11-13 | the start-up state `App.Initial` holds the seed letter, in `KOR`, with no translation running, and the seed's form is shown |
| App.SwitchToCurrentModeIsNoOp | App.tsx:23-55 | switching to the current mode is a no-op for both modes |
| App.SwitchBackKeepsTranslation | App.tsx:51-55 | a successful translation followed by switching back leaves the translated letter with mode `KOR` |
| App.FailedTranslationKeepsState | App.tsx:43-48 | a failed translation started in `KOR` changes nothing except clearing the flag |
| App.Perform | App.tsx:70-114 | an edit on the shown form takes effect, and its control then displays the entered value; an enabled ENG click in `KOR` with a parsed reply installs that letter and sets `ENG`; no action raises or lowers the translation flag; only an edit or a parsed reply changes the letter; the KOR button always ends in `KOR`; an edit keeps the mode |
| App.TranslateRunFromKorean | App.tsx:23-49 | from `KOR` with the form shown, a run of one ENG click with a parsed reply ends in the translated letter, mode `ENG`, flag down |
| App.Run | App.tsx:70-114 | a run performs its actions one after another from the first; `App.RunSnoc` states that the last action is performed on the state the rest of the run reached |
| App.RunSnoc | App.tsx:70-114 | extending a run by one action performs that action on the state the run reached |
| App.RunsEndWithFormShown | App.tsx:46-48 | after any run of atomic actions from a state with the flag down, the flag is still down, so the form is shown and the ENG button is enabled |
| App.OnlyEditsAndRepliesChangeLetter | App.tsx:15-55 | a run without edits and without parsed replies leaves the letter unchanged |
| App.EnglishOnlyAfterReply | App.tsx:40-42 | starting in `KOR`, the mode stays `KOR` in a run without a parsed reply |
| Preview.SummaryItems | components/Preview.tsx:65-69 | every summary line is rendered once and in order; it is styled as a detail iff it starts with `-` |
| Preview.Take | components/Preview.tsx:134 | `slice(0, n)` yields the first min(n, length) elements in order |
| Preview.Render | components/Preview.tsx:15-152 | date and quarter title are shown verbatim; each summary line is shown once, in order, styled as a detail iff it starts with `-`; there is one card per highlight with all its details; irSupport is shown in full; irAction shows its first min(6, length) lines |
| Preview.RenderDropsOnlyHiddenActions | components/Preview.tsx:15-152 | the letter can be read back from its preview plus the irAction lines past the sixth |
| Preview.SamePreviewIff | components/Preview.tsx:128-134 | two letters render alike iff they agree on everything except irAction and on the first six irAction lines |
| Preview.PerformanceChartShape | components/Preview.tsx:39-54 | the rendered chart gets the performance table unchanged, uses x-key quarter and draws the series revenue, profit rate and operating profit in that order; each figure is plotted once; profit rate is the only line and the only series on the right axis |
| Preview.IndicatorChartShape | components/Preview.tsx:107-117 | the rendered chart gets the indicator table unchanged, with x-key quarter and y-domain [0, 200], and draws the four named ratio lines, exactly one per ratio |
| Scenarios.SeedPerformanceTable | constants.tsx:15-23 | the seed has 7 performance rows with distinct quarter labels; row 6 is ('25 3Q, 16228, 1173, 7.2) |
| Scenarios.SeedTableSizes | constants.tsx:24-59 | the seed has 5 indicator rows and 3 cards with 3 details each |
| Scenarios.SeedSummaryStyles | constants.tsx:7-14 | the 6 seed summary lines render with details exactly at indices 2, 4 and 5 |
| Scenarios.SeedActionsCapped | constants.tsx:66-75 | the seed has 8 irAction lines; the preview shows the first 6 |
| Scenarios.SeedIsStable | constants.tsx:7-75 | no seed line list is empty and no seed line contains a newline |
| Scenarios.SeedTextAreasRoundTrip | constants.tsx:7-75 | re-submitting what any control of the seed form displays leaves the seed letter unchanged, since every seed line list survives join-then-split |
| Scenarios.EditSeedRevenue | constants.tsx:22 | setting the revenue of the seed's last quarter to 17000 yields the seed table with only that cell changed, and every other field of the letter is unchanged |
| Scenarios.TranslateSeedAndSwitchBack | App.tsx:11-55 | from start-up, a successful translation followed by switching back keeps the translated letter |

## Left out

- The call to the generative-AI service, its prompt text, `JSON.stringify` and `JSON.parse` (App.tsx:27-40) are external. The outcome of the call is an `Option<Letter>` parameter.
- `JSON.parse(response.text || '{}')` accepts an empty response as `{}` without checking its shape (App.tsx:40). That would install a letter with missing fields. A typed `Letter` cannot express this, so the model treats every parsed reply as a complete letter.
- `console.error`, `alert` and `window.print` are I/O. The alert is only recorded as the `Notice` of a finished translation, and printing is not modelled.
- The time a translation call is in flight is not modelled as a state of its own: `Run` treats a translation as one atomic action, and `BeginTranslation` models the loading state in between. Nothing can change the state during that time. The form is not rendered (App.tsx:105-115), the ENG button is disabled (App.tsx:78), and the KOR button returns at once, because a translation only starts in `KOR` (App.tsx:24, 52). Two calls could overlap only if the ENG button were clicked again before it re-renders disabled. Since `setIsTranslating(true)` runs before the first `await` (App.tsx:25), that overlap is not modelled.
- `Number(e.target.value)` parsing (components/Editor.tsx:68-70) is JavaScript number semantics. Number events carry the parsed `real`. `toLocaleString` and the `%` label formatting in the preview are also left out.
- Rows.UpdatePerformance, Rows.UpdateIndicator and Rows.UpdateHighlight require an in-range index. Their callers only pass indices of rows the form maps over (components/Editor.tsx:65-67, 78-82). An out-of-range index would make JavaScript build a sparse array of partial records, which the typed model cannot hold.
- Rows.UpdatePerformance, Rows.UpdateIndicator and Rows.UpdateHighlight require the cell kind to match the field. TypeScript types the value as `string | number` (or `string | string[]`), but every control passes the matching kind.
- There is no draft assistant for AI-drafted highlight cards in this revision of the source, so none is modelled.
- This revision's form renders no indicator inputs, so `updateIndicator` is unreachable from the form. It is modelled anyway (`Rows.UpdateIndicator`).
- Markup, styling, icons and recharts drawing are presentation only. The same goes for the static text of the preview: the "IR LETTER" heading, the company name, the section titles, the quotation marks around subtitles, and the footer address and phone number. Only the data, keys, series and y-domain passed to the charts are kept.

=== FILE: app.dfy ===
/** The top-level controller (App.tsx): the letter, the language mode and the
    translation-in-progress flag, and the actions that change them. The call to
    the external translation service is an oracle: its outcome is a parameter,
    `Some(letter)` for a response that parsed, `None` for a thrown error. */
module App {
  import opened Types
  import Editor
  import Seed

  datatype Lang = KOR | ENG

  /** The three pieces of application state. */
  datatype State = State(data: Letter, lang: Lang, translating: bool)

  /** The state on start-up: the seed letter, Korean, no translation running. */
  const Initial: State := State(Seed.InitialStateKor, KOR, false)

  /** User-visible side effect of an action. */
  datatype Notice = Silent | TranslationErrorAlert

  /** The state after an action, with the notice it raised. */
  datatype Step = Step(next: State, notice: Notice)

  /** The left pane: the edit form, or a loading view while a translation runs. */
  datatype Pane = Loading | Editing(form: Editor.Form)

  /** The editor is rendered exactly when no translation is running. */
  function LeftPane(s: State): (p: Pane)
    ensures p.Editing? <==> !s.translating
  {
    if s.translating then Loading else Editing(Editor.FormOf(s.data))
  }

  /** The ENG button is disabled while a translation runs, that is, exactly
      while the form is replaced by the loading view. */
  function TranslateEnabled(s: State): (b: bool)
    ensures b <==> LeftPane(s).Editing?
  {
    !s.translating
  }

  /** A change event from the form reaches `handleUpdateData`; only a shown
      form can emit one. Afterwards the form is still shown and its control
      displays the entered value; language and flag are untouched. */
  function Edit(s: State, e: Editor.Event): (r: State)
    requires LeftPane(s).Editing?
    requires Editor.Issuable(s.data, e)
    ensures r.lang == s.lang && r.translating == s.translating
    ensures LeftPane(r).Editing? && Editor.Shows(LeftPane(r).form, e)
  {
    s.(data := Editor.Apply(s.data, e))
  }

  /** First half of `translateToEnglish`: the guard, then the flag goes up
      and the loading view replaces the form. */
  function BeginTranslation(s: State): (r: State)
    ensures s.lang == ENG ==> r == s
    ensures s.lang == KOR ==> LeftPane(r).Loading? && r.data == s.data && r.lang == KOR
  {
    if s.lang == ENG then s else s.(translating := true)
  }

  /** Second half of `translateToEnglish`: a parsed response replaces the
      letter wholesale and switches to English; a thrown error leaves letter and
      language alone and raises an alert. The flag comes down either way. */
  function FinishTranslation(s: State, reply: Option<Letter>): (r: Step)
    ensures !r.next.translating
    ensures reply.Some? ==> r.next.data == reply.value && r.next.lang == ENG && r.notice == Silent
    ensures reply.None? ==> r.next.data == s.data && r.next.lang == s.lang && r.notice == TranslationErrorAlert
  {
    match reply
    case Some(translated) => Step(State(translated, ENG, false), Silent)
    case None => Step(s.(translating := false), TranslationErrorAlert)
  }

  /** `translateToEnglish` as one atomic step. */
  function Translate(s: State, reply: Option<Letter>): (r: Step)
    ensures s.lang == ENG ==> r == Step(s, Silent)
    ensures s.lang == KOR ==> !r.next.translating
    ensures s.lang == KOR ==> (r.next.lang == ENG <==> reply.Some?)
    ensures s.lang == KOR && reply.Some? ==> r.next.data == reply.value && r.notice == Silent
    ensures s.lang == KOR && reply.None? ==> r.next.data == s.data && r.notice == TranslationErrorAlert
  {
    if s.lang == ENG then Step(s, Silent)
    else FinishTranslation(BeginTranslation(s), reply)
  }

  /** `switchToKorean`: in this revision it only flips the mode back; the
      letter, translated or not, stays as it is. */
  function SwitchToKorean(s: State): (r: State)
    ensures r.lang == KOR
    ensures r.data == s.data && r.translating == s.translating
  {
    if s.lang == KOR then s else s.(lang := KOR)
  }

  /** The application starts with the seed letter in Korean, no translation
      running and the seed's form shown. */
  lemma InitialShowsSeedForm()
    ensures Initial.data == Seed.InitialStateKor && Initial.lang == KOR && !Initial.translating
    ensures LeftPane(Initial) == Editing(Editor.FormOf(Seed.InitialStateKor))
  {
  }

  /** Switching to the current mode is a no-op, for both modes. */
  lemma SwitchToCurrentModeIsNoOp(s: State, reply: Option<Letter>)
    ensures s.lang == KOR ==> SwitchToKorean(s) == s
    ensures s.lang == ENG ==> Translate(s, reply).next == s
    ensures SwitchToKorean(SwitchToKorean(s)) == SwitchToKorean(s)
  {
  }

  /** Translating and switching back does not restore the Korean letter: the
      translated letter stays on screen with the mode set to Korean. */
  lemma SwitchBackKeepsTranslation(s: State, translated: Letter)
    requires s.lang == KOR
    ensures SwitchToKorean(Translate(s, Some(translated)).next) == State(translated, KOR, false)
  {
  }

  /** A failed translation changes nothing but clearing the flag. */
  lemma FailedTranslationKeepsState(s: State)
    ensures s.lang == KOR ==> Translate(s, None).next == s.(translating := false)
  {
  }

  /** A user action between renders. */
  datatype Action =
    | EditAction(event: Editor.Event)
    | TranslateAction(reply: Option<Letter>)
    | KoreanAction

  /** One action. A change event for a control the screen does not show cannot
      fire, so it changes nothing; the ENG button is ignored while disabled.
      No action raises or lowers the translation flag, and only an edit or a parsed
      translation changes the letter. */
  function Perform(s: State, a: Action): (r: State)
    ensures r.translating == s.translating
    ensures !Touches(a) ==> r.data == s.data
    ensures a.KoreanAction? ==> r.lang == KOR
    ensures a.EditAction? ==> r.lang == s.lang
    ensures a.EditAction? && !s.translating && Editor.Issuable(s.data, a.event) ==>
      Editor.Shows(Editor.FormOf(r.data), a.event)
    ensures a.TranslateAction? && !s.translating && s.lang == KOR && a.reply.Some? ==>
      r.data == a.reply.value && r.lang == ENG
  {
    match a
    case EditAction(e) =>
      if LeftPane(s).Editing? && Editor.Issuable(s.data, e) then Edit(s, e) else s
    case TranslateAction(reply) =>
      if TranslateEnabled(s) then Translate(s, reply).next else s
    case KoreanAction => SwitchToKorean(s)
  }

  /** A sequence of actions, first to last. */
  function Run(s: State, acts: seq<Action>): State
    decreases |acts|
  {
    if |acts| == 0 then s else Run(Perform(s, acts[0]), acts[1..])
  }

  /** Between atomic actions no translation is ever running, so the form is
      always shown and the ENG button always enabled. */
  lemma {:induction false} RunsEndWithFormShown(s: State, acts: seq<Action>)
    requires !s.translating
    ensures !Run(s, acts).translating
    ensures LeftPane(Run(s, acts)).Editing? && TranslateEnabled(Run(s, acts))
    decreases |acts|
  {
    if |acts| > 0 {
      RunsEndWithFormShown(Perform(s, acts[0]), acts[1..]);
    }
  }

  /** The action changes the letter only by an edit or a parsed translation. */
  predicate Touches(a: Action)
  {
    a.EditAction? || (a.TranslateAction? && a.reply.Some?)
  }

  /** A run performs its actions first to last: extending a run by one action
      performs that action on the state the run reached. */
  lemma {:induction false} RunSnoc(s: State, acts: seq<Action>, a: Action)
    ensures Run(s, acts + [a]) == Perform(Run(s, acts), a)
    decreases |acts|
  {
    if |acts| == 0 {
      assert acts + [a] == [a];
    } else {
      assert (acts + [a])[0] == acts[0];
      assert (acts + [a])[1..] == acts[1..] + [a];
      RunSnoc(Perform(s, acts[0]), acts[1..], a);
    }
  }

  /** From a Korean letter with the form shown, one ENG click answered by a
      parsed reply installs the translated letter in English mode. */
  lemma TranslateRunFromKorean(s: State, translated: Letter)
    requires !s.translating && s.lang == KOR
    ensures Run(s, [TranslateAction(Some(translated))]) == State(translated, ENG, false)
  {
    assert [TranslateAction(Some(translated))][1..] == [];
  }

  /** Switching modes and failed translations never change the letter. */
  lemma {:induction false} OnlyEditsAndRepliesChangeLetter(s: State, acts: seq<Action>)
    requires forall i :: 0 <= i < |acts| ==> !Touches(acts[i])
    ensures Run(s, acts).data == s.data
    decreases |acts|
  {
    if |acts| > 0 {
      assert !Touches(acts[0]);
      OnlyEditsAndRepliesChangeLetter(Perform(s, acts[0]), acts[1..]);
    }
  }

  /** English is reached only through a parsed translation response. */
  lemma {:induction false} EnglishOnlyAfterReply(s: State, acts: seq<Action>)
    requires s.lang == KOR
    requires forall i :: 0 <= i < |acts| ==> !(acts[i].TranslateAction? && acts[i].reply.Some?)
    ensures Run(s, acts).lang == KOR
    decreases |acts|
  {
    if |acts| > 0 {
      var a := acts[0];
      assert !(a.TranslateAction? && a.reply.Some?);
      EnglishOnlyAfterReply(Perform(s, a), acts[1..]);
    }
  }
}

=== FILE: editor.dfy ===
/** The edit form (components/Editor.tsx): what each control displays for a
    letter, the change events the controls emit, and how each event becomes a
    new letter. */
module Editor {
  import opened Types
  import opened TextLines
  import opened Rows
  import Fields

  /** The three controls of one highlight card. */
  datatype CardInputs = CardInputs(title: string, subtitle: string, detailsText: string)

  /** What the form displays. Text areas show their lines joined with a
      newline; there is one input row per performance row and one input card
      per highlight. This revision renders no control for the indicator table. */
  datatype Form = Form(
    date: string,
    quarterTitle: string,
    summaryText: string,
    performanceRows: seq<Performance>,
    cards: seq<CardInputs>,
    supportText: string,
    actionText: string)

  /** The inputs of one highlight card. Title and subtitle are shown as they
      are; the details text area, split again, gives back a non-empty,
      newline-free details list. */
  function CardInputsOf(h: Highlight): (c: CardInputs)
    ensures c.title == h.title && c.subtitle == h.subtitle
    ensures |h.details| >= 1 && AllFree(h.details, Newline) ==> Split(c.detailsText, Newline) == h.details
  {
    var c := CardInputs(h.title, h.subtitle, Join(h.details, Newline));
    if |h.details| >= 1 && AllFree(h.details, Newline) then
      SplitJoin(h.details, Newline);
      c
    else
      c
  }

  /** The form generated for `d`. */
  function FormOf(d: Letter): (f: Form)
    ensures |f.performanceRows| == |d.performanceHistory|
    ensures |f.cards| == |d.businessHighlights|
  {
    Form(
      d.date,
      d.quarterTitle,
      Join(d.earningsSummary, Newline),
      d.performanceHistory,
      seq(|d.businessHighlights|, i requires 0 <= i < |d.businessHighlights| => CardInputsOf(d.businessHighlights[i])),
      Join(d.irSupport, Newline),
      Join(d.irAction, Newline))
  }

  /** A change event of one control, carrying the control's new value. The
      numeric inputs have already converted their text into a number. */
  datatype Event =
    | DateEdited(text: string)
    | QuarterTitleEdited(text: string)
    | SummaryEdited(text: string)
    | PerformanceEdited(row: nat, field: PerformanceField, cell: Cell)
    | HighlightEdited(card: nat, part: HighlightField, text: string)
    | SupportEdited(text: string)
    | ActionEdited(text: string)

  /** `e` can be emitted by a control of the form generated for `d`: row and
      card controls exist only for the indices the form maps over, and the
      quarter input emits text while the figure inputs emit numbers. */
  function Issuable(d: Letter, e: Event): (b: bool)
    ensures b <==>
      && (e.PerformanceEdited? ==> e.row < |d.performanceHistory| && PerformanceFits(e.field, e.cell))
      && (e.HighlightEdited? ==> e.card < |d.businessHighlights|)
  {
    match e
    case PerformanceEdited(i, f, c) => i < |FormOf(d).performanceRows| && PerformanceFits(f, c)
    case HighlightEdited(i, _, _) => i < |FormOf(d).cards|
    case _ => true
  }

  /** The top-level field an event writes. */
  function Target(e: Event): Fields.Key
  {
    match e
    case DateEdited(_) => Fields.Date
    case QuarterTitleEdited(_) => Fields.QuarterTitle
    case SummaryEdited(_) => Fields.EarningsSummary
    case PerformanceEdited(_, _, _) => Fields.PerformanceHistory
    case HighlightEdited(_, _, _) => Fields.BusinessHighlights
    case SupportEdited(_) => Fields.IrSupport
    case ActionEdited(_) => Fields.IrAction
  }

  /** The control that emitted `e` displays `e`'s value in form `f`. */
  predicate Shows(f: Form, e: Event)
  {
    match e
    case DateEdited(t) => f.date == t
    case QuarterTitleEdited(t) => f.quarterTitle == t
    case SummaryEdited(t) => f.summaryText == t
    case PerformanceEdited(i, fl, c) =>
      i < |f.performanceRows| && PerformanceCell(f.performanceRows[i], fl) == c
    case HighlightEdited(i, p, t) =>
      i < |f.cards| &&
      (match p
       case Title => f.cards[i].title == t
       case Subtitle => f.cards[i].subtitle == t
       case Details => f.cards[i].detailsText == t)
    case SupportEdited(t) => f.supportText == t
    case ActionEdited(t) => f.actionText == t
  }

  /** The cell a highlight event stores: the details text area stores its text
      split on newlines. */
  function HighlightInput(p: HighlightField, t: string): (c: Cell)
    ensures HighlightFits(p, c)
    ensures p != Details ==> c == TextCell(t)
    ensures p == Details ==>
      && Join(c.lines, Newline) == t
      && AllFree(c.lines, Newline)
      && |c.lines| == Occurrences(t, Newline) + 1
  {
    if p == Details then
      JoinSplit(t, Newline);
      LinesCell(Split(t, Newline))
    else
      TextCell(t)
  }

  /** The onChange handlers: every event becomes one whole-field replacement.
      The control that emitted the event displays exactly the entered value
      afterwards, the form keeps its shape, and no other field changes. */
  function Apply(d: Letter, e: Event): (r: Letter)
    requires Issuable(d, e)
    ensures Shows(FormOf(r), e)
    ensures forall k :: k != Target(e) ==> Fields.Get(r, k) == Fields.Get(d, k)
    ensures |r.performanceHistory| == |d.performanceHistory|
    ensures |r.businessHighlights| == |d.businessHighlights|
  {
    match e
    case DateEdited(t) => Fields.Update(d, Fields.Date, Fields.Text(t))
    case QuarterTitleEdited(t) => Fields.Update(d, Fields.QuarterTitle, Fields.Text(t))
    case SummaryEdited(t) =>
      JoinSplit(t, Newline);
      Fields.Update(d, Fields.EarningsSummary, Fields.Lines(Split(t, Newline)))
    case PerformanceEdited(i, f, c) => UpdatePerformance(d, i, f, c)
    case HighlightEdited(i, p, t) =>
      JoinSplit(t, Newline);
      UpdateHighlight(d, i, p, HighlightInput(p, t))
    case SupportEdited(t) =>
      JoinSplit(t, Newline);
      Fields.Update(d, Fields.IrSupport, Fields.Lines(Split(t, Newline)))
    case ActionEdited(t) =>
      JoinSplit(t, Newline);
      Fields.Update(d, Fields.IrAction, Fields.Lines(Split(t, Newline)))
  }

  /** Every line list edited through a text area is non-empty and
      newline-free, so it is displayed and stored back without change. */
  predicate Stable(d: Letter)
  {
    && |d.earningsSummary| >= 1 && AllFree(d.earningsSummary, Newline)
    && |d.irSupport| >= 1 && AllFree(d.irSupport, Newline)
    && |d.irAction| >= 1 && AllFree(d.irAction, Newline)
    && forall i :: 0 <= i < |d.businessHighlights| ==>
         |d.businessHighlights[i].details| >= 1 && AllFree(d.businessHighlights[i].details, Newline)
  }

  /** Each of the four text areas stores one line more than the entered text
      has newlines, and no stored line contains a newline. With the display
      `Shows` guarantees, this fixes the stored list. */
  lemma TextAreaStoresLines(d: Letter, t: string, i: nat)
    ensures |Apply(d, SummaryEdited(t)).earningsSummary| == Occurrences(t, Newline) + 1
    ensures AllFree(Apply(d, SummaryEdited(t)).earningsSummary, Newline)
    ensures |Apply(d, SupportEdited(t)).irSupport| == Occurrences(t, Newline) + 1
    ensures AllFree(Apply(d, SupportEdited(t)).irSupport, Newline)
    ensures |Apply(d, ActionEdited(t)).irAction| == Occurrences(t, Newline) + 1
    ensures AllFree(Apply(d, ActionEdited(t)).irAction, Newline)
    ensures i < |d.businessHighlights| ==>
      var details := Apply(d, HighlightEdited(i, Details, t)).businessHighlights[i].details;
      |details| == Occurrences(t, Newline) + 1 && AllFree(details, Newline)
  {
    assert Apply(d, SummaryEdited(t)).earningsSummary == Split(t, Newline);
    assert Apply(d, SupportEdited(t)).irSupport == Split(t, Newline);
    assert Apply(d, ActionEdited(t)).irAction == Split(t, Newline);
    if i < |d.businessHighlights| {
      var r := Apply(d, HighlightEdited(i, Details, t));
      assert HighlightCell(r.businessHighlights[i], Details) == HighlightInput(Details, t);
    }
  }

  /** Clearing a text area stores one empty line, never the empty list. */
  lemma ClearingStoresOneEmptyLine(d: Letter, i: nat)
    ensures Apply(d, SummaryEdited("")).earningsSummary == [""]
    ensures Apply(d, SupportEdited("")).irSupport == [""]
    ensures Apply(d, ActionEdited("")).irAction == [""]
    ensures i < |d.businessHighlights| ==>
      Apply(d, HighlightEdited(i, Details, "")).businessHighlights[i].details == [""]
  {
    var empty := Split("", Newline);
    assert empty == [""];
    assert Apply(d, SummaryEdited("")) == d.(earningsSummary := empty);
    assert Apply(d, SupportEdited("")) == d.(irSupport := empty);
    assert Apply(d, ActionEdited("")) == d.(irAction := empty);
    if i < |d.businessHighlights| {
      var r := Apply(d, HighlightEdited(i, Details, ""));
      assert HighlightCell(r.businessHighlights[i], Details) == LinesCell(empty);
    }
  }

  /** Edits through the form never touch the indicator table. */
  lemma EditsLeaveIndicatorsAlone(d: Letter, e: Event)
    requires Issuable(d, e)
    ensures Apply(d, e).indicatorHistory == d.indicatorHistory
  {
    assert Fields.Get(Apply(d, e), Fields.IndicatorHistory) == Fields.Get(d, Fields.IndicatorHistory);
  }

  /** A text-area event that re-submits the displayed text of a non-empty,
      newline-free list stores that list again. */
  lemma EchoLinesIsNoOp(d: Letter, k: Fields.Key, t: string)
    requires Fields.Get(d, k).Lines?
    requires |Fields.Get(d, k).lines| >= 1 && AllFree(Fields.Get(d, k).lines, Newline)
    requires t == Join(Fields.Get(d, k).lines, Newline)
    ensures Fields.Update(d, k, Fields.Lines(Split(t, Newline))) == d
  {
    SplitJoin(Fields.Get(d, k).lines, Newline);
    Fields.UpdateWithCurrentValue(d, k);
  }

  /** A highlight event that re-submits what its input displays stores the
      card's current value again. */
  lemma EchoHighlightIsNoOp(d: Letter, i: nat, p: HighlightField, t: string)
    requires i < |d.businessHighlights|
    requires |d.businessHighlights[i].details| >= 1
    requires AllFree(d.businessHighlights[i].details, Newline)
    requires Shows(FormOf(d), HighlightEdited(i, p, t))
    ensures Apply(d, HighlightEdited(i, p, t)) == d
  {
    var h := d.businessHighlights[i];
    assert FormOf(d).cards[i] == CardInputsOf(h);
    if p == Details {
      SplitJoin(h.details, Newline);
    }
    assert HighlightInput(p, t) == HighlightCell(h, p);
    UpdateHighlightWithCurrentValue(d, i, p);
  }

  /** An event that re-submits the value its control already displays leaves a
      stable letter unchanged. */
  lemma EchoIsNoOp(d: Letter, e: Event)
    requires Stable(d)
    requires Issuable(d, e)
    requires Shows(FormOf(d), e)
    ensures Apply(d, e) == d
  {
    match e
    case DateEdited(t) =>
      Fields.UpdateWithCurrentValue(d, Fields.Date);
    case QuarterTitleEdited(t) =>
      Fields.UpdateWithCurrentValue(d, Fields.QuarterTitle);
    case SummaryEdited(t) =>
      EchoLinesIsNoOp(d, Fields.EarningsSummary, t);
    case PerformanceEdited(i, f, c) =>
      UpdatePerformanceWithCurrentValue(d, i, f);
    case HighlightEdited(i, p, t) =>
      EchoHighlightIsNoOp(d, i, p, t);
    case SupportEdited(t) =>
      EchoLinesIsNoOp(d, Fields.IrSupport, t);
    case ActionEdited(t) =>
      EchoLinesIsNoOp(d, Fields.IrAction, t);
  }

  /** A highlight edit keeps a stable letter stable: the details text area
      stores a non-empty newline-free list, and the other parts leave the
      details as they were. */
  lemma HighlightEditKeepsStable(d: Letter, i: nat, p: HighlightField, t: string)
    requires Stable(d)
    requires i < |d.businessHighlights|
    ensures Stable(Apply(d, HighlightEdited(i, p, t)))
  {
    var r := UpdateHighlight(d, i, p, HighlightInput(p, t));
    assert Apply(d, HighlightEdited(i, p, t)) == r;
    forall j | 0 <= j < |r.businessHighlights|
      ensures |r.businessHighlights[j].details| >= 1
      ensures AllFree(r.businessHighlights[j].details, Newline)
    {
      if j == i && p == Details {
        assert HighlightCell(r.businessHighlights[i], Details) == HighlightInput(Details, t);
      } else if j == i {
        assert HighlightCell(r.businessHighlights[i], Details) == HighlightCell(d.businessHighlights[i], Details);
      }
    }
  }

  /** Storing a text area's text in one of the three top-level line lists
      keeps a stable letter stable: the text is stored split on newlines. */
  lemma LinesEditKeepsStable(d: Letter, k: Fields.Key, t: string)
    requires Stable(d)
    requires k == Fields.EarningsSummary || k == Fields.IrSupport || k == Fields.IrAction
    ensures Stable(Fields.Update(d, k, Fields.Lines(Split(t, Newline))))
  {
    var lines := Split(t, Newline);
    assert |lines| >= 1 && AllFree(lines, Newline);
  }

  /** Every edit keeps a stable letter stable, since text areas store
      non-empty newline-free lists. */
  lemma ApplyKeepsStable(d: Letter, e: Event)
    requires Stable(d)
    requires Issuable(d, e)
    ensures Stable(Apply(d, e))
  {
    match e
    case DateEdited(t) =>
      assert Apply(d, e) == d.(date := t);
    case QuarterTitleEdited(t) =>
      assert Apply(d, e) == d.(quarterTitle := t);
    case SummaryEdited(t) =>
      LinesEditKeepsStable(d, Fields.EarningsSummary, t);
    case PerformanceEdited(i, f, c) =>
      var rows := d.performanceHistory;
      assert Apply(d, e) == d.(performanceHistory := rows[i := SetPerformanceCell(rows[i], f, c)]);
    case HighlightEdited(i, p, t) =>
      HighlightEditKeepsStable(d, i, p, t);
    case SupportEdited(t) =>
      LinesEditKeepsStable(d, Fields.IrSupport, t);
    case ActionEdited(t) =>
      LinesEditKeepsStable(d, Fields.IrAction, t);
  }

  /** A list that was empty (possible only for a document not produced by the
      form) does not survive a re-submission: it comes back as one empty line. */
  lemma EmptySummaryIsNotStable(d: Letter)
    requires d.earningsSummary == []
    ensures Apply(d, SummaryEdited(FormOf(d).summaryText)).earningsSummary == [""]
  {
  }
}

=== FILE: fields.dfy ===
/** Whole-field replacement of the letter (handleUpdateData in App.tsx): the
    single choke point through which every edit reaches the document. */
module Fields {
  import opened Types

  /** `keyof IRLetterState`: the eight top-level fields. */
  datatype Key =
    | Date
    | QuarterTitle
    | EarningsSummary
    | PerformanceHistory
    | BusinessHighlights
    | IndicatorHistory
    | IrSupport
    | IrAction

  /** The value of one top-level field. */
  datatype Value =
    | Text(text: string)
    | Lines(lines: seq<string>)
    | PerformanceRows(performance: seq<Performance>)
    | HighlightCards(cards: seq<Highlight>)
    | IndicatorRows(indicators: seq<Indicator>)

  /** `IRLetterState[K]`: the kind of value each key holds. */
  predicate Fits(k: Key, v: Value)
  {
    match k
    case Date | QuarterTitle => v.Text?
    case EarningsSummary | IrSupport | IrAction => v.Lines?
    case PerformanceHistory => v.PerformanceRows?
    case BusinessHighlights => v.HighlightCards?
    case IndicatorHistory => v.IndicatorRows?
  }

  /** `d[k]`. */
  function Get(d: Letter, k: Key): (v: Value)
    ensures Fits(k, v)
  {
    match k
    case Date => Text(d.date)
    case QuarterTitle => Text(d.quarterTitle)
    case EarningsSummary => Lines(d.earningsSummary)
    case PerformanceHistory => PerformanceRows(d.performanceHistory)
    case BusinessHighlights => HighlightCards(d.businessHighlights)
    case IndicatorHistory => IndicatorRows(d.indicatorHistory)
    case IrSupport => Lines(d.irSupport)
    case IrAction => Lines(d.irAction)
  }

  /** `{ ...d, [k]: v }`: the letter with field `k` replaced by `v` and every
      other field as it was. */
  function Update(d: Letter, k: Key, v: Value): (r: Letter)
    requires Fits(k, v)
    ensures Get(r, k) == v
    ensures forall k' :: k' != k ==> Get(r, k') == Get(d, k')
  {
    match k
    case Date => d.(date := v.text)
    case QuarterTitle => d.(quarterTitle := v.text)
    case EarningsSummary => d.(earningsSummary := v.lines)
    case PerformanceHistory => d.(performanceHistory := v.performance)
    case BusinessHighlights => d.(businessHighlights := v.cards)
    case IndicatorHistory => d.(indicatorHistory := v.indicators)
    case IrSupport => d.(irSupport := v.lines)
    case IrAction => d.(irAction := v.lines)
  }

  /** The eight keys of the letter. */
  const AllKeys: set<Key> :=
    {Date, QuarterTitle, EarningsSummary, PerformanceHistory,
     BusinessHighlights, IndicatorHistory, IrSupport, IrAction}

  /** Every key is one of the eight. */
  lemma AllKeysComplete(k: Key)
    ensures k in AllKeys
  {
    match k
    case Date => case QuarterTitle => case EarningsSummary =>
    case PerformanceHistory => case BusinessHighlights =>
    case IndicatorHistory => case IrSupport => case IrAction =>
  }

  /** The eight keys are distinct. */
  lemma AllKeysCount()
    ensures |AllKeys| == 8
  {
    var front: set<Key> := {Date, QuarterTitle, EarningsSummary, PerformanceHistory};
    var back: set<Key> := {BusinessHighlights, IndicatorHistory, IrSupport, IrAction};
    assert |front| == 4 && |back| == 4;
    assert front !! back;
    assert AllKeys == front + back;
  }

  /** A letter has exactly eight fields, and each holds a value of its kind. */
  lemma EightFields(d: Letter)
    ensures forall k: Key :: k in AllKeys && Fits(k, Get(d, k))
    ensures |AllKeys| == 8
  {
    forall k: Key
      ensures k in AllKeys
    {
      AllKeysComplete(k);
    }
    AllKeysCount();
  }

  /** No field is hidden from `Get`: letters that agree on every key are equal. */
  lemma FieldsDetermineLetter(a: Letter, b: Letter)
    requires forall k :: Get(a, k) == Get(b, k)
    ensures a == b
  {
    assert Get(a, Date) == Get(b, Date);
    assert Get(a, QuarterTitle) == Get(b, QuarterTitle);
    assert Get(a, EarningsSummary) == Get(b, EarningsSummary);
    assert Get(a, PerformanceHistory) == Get(b, PerformanceHistory);
    assert Get(a, BusinessHighlights) == Get(b, BusinessHighlights);
    assert Get(a, IndicatorHistory) == Get(b, IndicatorHistory);
    assert Get(a, IrSupport) == Get(b, IrSupport);
    assert Get(a, IrAction) == Get(b, IrAction);
  }

  /** Writing back a field's current value changes nothing. */
  lemma UpdateWithCurrentValue(d: Letter, k: Key)
    ensures Update(d, k, Get(d, k)) == d
  {
    FieldsDetermineLetter(Update(d, k, Get(d, k)), d);
  }

  /** Two writes to the same field: the later one wins. */
  lemma UpdateLastWins(d: Letter, k: Key, v: Value, w: Value)
    requires Fits(k, v) && Fits(k, w)
    ensures Update(Update(d, k, v), k, w) == Update(d, k, w)
  {
    FieldsDetermineLetter(Update(Update(d, k, v), k, w), Update(d, k, w));
  }

  /** Writes to different fields commute. */
  lemma UpdatesCommute(d: Letter, k1: Key, v1: Value, k2: Key, v2: Value)
    requires k1 != k2
    requires Fits(k1, v1) && Fits(k2, v2)
    ensures Update(Update(d, k1, v1), k2, v2) == Update(Update(d, k2, v2), k1, v1)
  {
    FieldsDetermineLetter(Update(Update(d, k1, v1), k2, v2), Update(Update(d, k2, v2), k1, v1));
  }
}

=== FILE: preview.dfy ===
/** The preview (components/Preview.tsx) as an abstract layout: a pure
    projection of the letter. Only the data handed to the chart library is
    kept, not its drawing. */
module Preview {
  import opened Types
  import opened Rows

  /** How an earnings-summary line is styled. */
  datatype Style = Heading | Detail

  datatype SummaryItem = SummaryItem(style: Style, text: string)

  /** One rendered highlight card with its bulleted details. */
  datatype Card = Card(title: string, subtitle: string, bullets: seq<string>)

  datatype Mark = BarMark | LineMark
  datatype Axis = LeftAxis | RightAxis

  /** One series of the performance chart: its mark, data key and y-axis. */
  datatype Series = Series(mark: Mark, key: PerformanceField, axis: Axis)

  /** The combined bar and line chart over the performance table. */
  datatype PerformanceChart = PerformanceChart(
    rows: seq<Performance>,
    xKey: PerformanceField,
    series: seq<Series>)

  /** One line of the indicator chart: its data key and legend name. */
  datatype IndicatorLine = IndicatorLine(key: IndicatorField, name: string)

  /** The line chart over the indicator table, with a fixed y-domain. */
  datatype IndicatorChart = IndicatorChart(
    rows: seq<Indicator>,
    xKey: IndicatorField,
    yMin: int,
    yMax: int,
    lines: seq<IndicatorLine>)

  /** The whole rendered letter. */
  datatype Layout = Layout(
    date: string,
    quarterTitle: string,
    performanceChart: PerformanceChart,
    summary: seq<SummaryItem>,
    cards: seq<Card>,
    indicatorChart: IndicatorChart,
    support: seq<string>,
    actions: seq<string>)

  /** At most this many irAction lines are shown. */
  const ActionLineCap: nat := 6

  /** `line.startsWith('-')`. */
  predicate StartsWithDash(line: string)
  {
    |line| > 0 && line[0] == '-'
  }

  /** The styled earnings-summary list. */
  function SummaryItems(lines: seq<string>): (r: seq<SummaryItem>)
    ensures |r| == |lines|
    ensures forall i :: 0 <= i < |r| ==>
      r[i].text == lines[i] && (r[i].style == Detail <==> StartsWithDash(lines[i]))
  {
    seq(|lines|, i requires 0 <= i < |lines| =>
      SummaryItem(if StartsWithDash(lines[i]) then Detail else Heading, lines[i]))
  }

  function CardOf(h: Highlight): Card
  {
    Card(h.title, h.subtitle, h.details)
  }

  /** `xs.slice(0, n)`: the first `n` elements, or all of them if fewer. */
  function Take<T>(xs: seq<T>, n: nat): (r: seq<T>)
    ensures |r| == if |xs| < n then |xs| else n
    ensures forall i :: 0 <= i < |r| ==> r[i] == xs[i]
  {
    if |xs| <= n then xs else xs[..n]
  }

  /** The series handed to the performance chart, in drawing order. */
  const PerformanceSeries: seq<Series> := [
    Series(BarMark, Revenue, LeftAxis),
    Series(LineMark, ProfitRate, RightAxis),
    Series(BarMark, OperatingProfit, LeftAxis)]

  /** The lines handed to the indicator chart, with their legend names. */
  const IndicatorLines: seq<IndicatorLine> := [
    IndicatorLine(LiquidityRatio, "유동비율"),
    IndicatorLine(EquityRatio, "자기자본비율"),
    IndicatorLine(DependencyRatio, "차입금의존도"),
    IndicatorLine(DebtRatio, "부채비율")]

  /** The performance fields some series plots. */
  function PlottedFigures(): set<PerformanceField>
  {
    set s | s in PerformanceSeries :: s.key
  }

  /** The indicator fields some line plots. */
  function PlottedRatios(): set<IndicatorField>
  {
    set l | l in IndicatorLines :: l.key
  }

  /** The preview of letter `d`, section by section: date and quarter title
      verbatim, each summary line once and styled by its leading dash, one card
      per highlight with all its details, irSupport in full, and the first
      lines of irAction up to the cap. */
  function Render(d: Letter): (r: Layout)
    ensures r.date == d.date && r.quarterTitle == d.quarterTitle
    ensures |r.summary| == |d.earningsSummary|
    ensures forall i :: 0 <= i < |r.summary| ==>
      r.summary[i].text == d.earningsSummary[i] && (r.summary[i].style == Detail <==> StartsWithDash(d.earningsSummary[i]))
    ensures |r.cards| == |d.businessHighlights|
    ensures forall i :: 0 <= i < |d.businessHighlights| ==>
      r.cards[i] == Card(d.businessHighlights[i].title, d.businessHighlights[i].subtitle,
                         d.businessHighlights[i].details)
    ensures r.support == d.irSupport
    ensures |r.actions| == if |d.irAction| < ActionLineCap then |d.irAction| else ActionLineCap
    ensures r.actions == d.irAction[..|r.actions|]
  {
    Layout(
      d.date,
      d.quarterTitle,
      PerformanceChart(d.performanceHistory, Quarter, PerformanceSeries),
      SummaryItems(d.earningsSummary),
      seq(|d.businessHighlights|, i requires 0 <= i < |d.businessHighlights| => CardOf(d.businessHighlights[i])),
      IndicatorChart(d.indicatorHistory, IndicatorQuarter, 0, 200, IndicatorLines),
      d.irSupport,
      Take(d.irAction, ActionLineCap))
  }

  /** The letter a layout shows, given the irAction lines the preview hides. */
  function Recover(l: Layout, hidden: seq<string>): Letter
  {
    Letter(
      l.date,
      l.quarterTitle,
      seq(|l.summary|, i requires 0 <= i < |l.summary| => l.summary[i].text),
      l.performanceChart.rows,
      seq(|l.cards|, i requires 0 <= i < |l.cards| => Highlight(l.cards[i].title, l.cards[i].subtitle, l.cards[i].bullets)),
      l.indicatorChart.rows,
      l.support,
      l.actions + hidden)
  }

  /** The lines of `d.irAction` past the cap. */
  function Hidden(d: Letter): seq<string>
  {
    if |d.irAction| <= ActionLineCap then [] else d.irAction[ActionLineCap..]
  }

  /** No field is dropped from the preview: apart from the irAction lines past
      the cap, the letter can be read back from its layout. */
  lemma RenderDropsOnlyHiddenActions(d: Letter)
    ensures Recover(Render(d), Hidden(d)) == d
  {
    var l := Render(d);
    var r := Recover(l, Hidden(d));
    assert r.earningsSummary == d.earningsSummary;
    assert r.businessHighlights == d.businessHighlights;
    assert r.irAction == d.irAction;
  }

  /** Two letters have the same preview exactly when they agree on everything
      but irAction and on the first six irAction lines. */
  lemma SamePreviewIff(a: Letter, b: Letter)
    ensures Render(a) == Render(b) <==>
      a.(irAction := []) == b.(irAction := []) &&
      Take(a.irAction, ActionLineCap) == Take(b.irAction, ActionLineCap)
  {
    if Render(a) == Render(b) {
      RenderDropsOnlyHiddenActions(a);
      RenderDropsOnlyHiddenActions(b);
      assert Recover(Render(a), []) == Recover(Render(b), []);
      assert Recover(Render(a), []) == a.(irAction := Render(a).actions);
      assert Recover(Render(b), []) == b.(irAction := Render(b).actions);
    }
  }

  /** The performance chart plots the table unchanged against the quarter
      label, one series per figure: revenue and operating profit as bars on the
      left axis, profit rate as a line on the right axis. */
  lemma PerformanceChartShape(d: Letter)
    ensures Render(d).performanceChart.rows == d.performanceHistory
    ensures Render(d).performanceChart.xKey == Quarter
    ensures Render(d).performanceChart.series == PerformanceSeries
    ensures forall f :: f in PlottedFigures() <==> f != Quarter
    ensures forall i, j :: 0 <= i < j < |PerformanceSeries| ==> PerformanceSeries[i].key != PerformanceSeries[j].key
    ensures forall i :: 0 <= i < |PerformanceSeries| ==>
      (PerformanceSeries[i].mark == LineMark <==> PerformanceSeries[i].key == ProfitRate) &&
      (PerformanceSeries[i].axis == RightAxis <==> PerformanceSeries[i].key == ProfitRate)
  {
    assert PlottedFigures() == {Revenue, ProfitRate, OperatingProfit};
  }

  /** The indicator chart plots the table unchanged against the quarter label
      on the fixed domain [0, 200], one line per ratio. */
  lemma IndicatorChartShape(d: Letter)
    ensures Render(d).indicatorChart.rows == d.indicatorHistory
    ensures Render(d).indicatorChart.xKey == IndicatorQuarter
    ensures Render(d).indicatorChart.yMin == 0 && Render(d).indicatorChart.yMax == 200
    ensures Render(d).indicatorChart.lines == IndicatorLines
    ensures forall f :: f in PlottedRatios() <==> f != IndicatorQuarter
    ensures forall i, j :: 0 <= i < j < |IndicatorLines| ==> IndicatorLines[i].key != IndicatorLines[j].key
  {
    assert PlottedRatios() == {LiquidityRatio, EquityRatio, DependencyRatio, DebtRatio};
  }
}

=== FILE: rows.dfy ===
/** Row-level immutable updates of the editor (updatePerformance,
    updateIndicator and updateHighlight in components/Editor.tsx): copy the
    sequence, shallow-merge one field into one element, and write the whole
    sequence back through `Fields.Update`. */
module Rows {
  import opened Types
  import Fields

  /** The value of one cell of a row. */
  datatype Cell =
    | TextCell(text: string)
    | NumberCell(number: real)
    | LinesCell(lines: seq<string>)

  /** `keyof PerformanceData`. */
  datatype PerformanceField = Quarter | Revenue | OperatingProfit | ProfitRate

  /** `keyof IndicatorData`. */
  datatype IndicatorField = IndicatorQuarter | LiquidityRatio | EquityRatio | DependencyRatio | DebtRatio

  /** `keyof BusinessHighlight`. */
  datatype HighlightField = Title | Subtitle | Details

  // ---------------------------------------------------------------- performance

  /** The quarter label holds text; the three figures hold numbers. */
  predicate PerformanceFits(f: PerformanceField, c: Cell)
  {
    if f == Quarter then c.TextCell? else c.NumberCell?
  }

  /** `row[f]`. */
  function PerformanceCell(row: Performance, f: PerformanceField): (c: Cell)
    ensures PerformanceFits(f, c)
  {
    match f
    case Quarter => TextCell(row.quarter)
    case Revenue => NumberCell(row.revenue)
    case OperatingProfit => NumberCell(row.operatingProfit)
    case ProfitRate => NumberCell(row.profitRate)
  }

  /** `{ ...row, [f]: c }`. */
  function SetPerformanceCell(row: Performance, f: PerformanceField, c: Cell): (r: Performance)
    requires PerformanceFits(f, c)
    ensures PerformanceCell(r, f) == c
    ensures forall g :: g != f ==> PerformanceCell(r, g) == PerformanceCell(row, g)
  {
    match f
    case Quarter => row.(quarter := c.text)
    case Revenue => row.(revenue := c.number)
    case OperatingProfit => row.(operatingProfit := c.number)
    case ProfitRate => row.(profitRate := c.number)
  }

  /** A performance row is its quarter label plus exactly three figures: rows
      that agree on these four cells are equal. */
  lemma PerformanceCellsDetermineRow(a: Performance, b: Performance)
    requires forall f :: PerformanceCell(a, f) == PerformanceCell(b, f)
    ensures a == b
  {
    assert PerformanceCell(a, Quarter) == PerformanceCell(b, Quarter);
    assert PerformanceCell(a, Revenue) == PerformanceCell(b, Revenue);
    assert PerformanceCell(a, OperatingProfit) == PerformanceCell(b, OperatingProfit);
    assert PerformanceCell(a, ProfitRate) == PerformanceCell(b, ProfitRate);
  }

  /** `updatePerformance(i, f, c)`: row `i` gets `c` in field `f`. */
  function UpdatePerformance(d: Letter, i: nat, f: PerformanceField, c: Cell): (r: Letter)
    requires i < |d.performanceHistory|
    requires PerformanceFits(f, c)
    ensures |r.performanceHistory| == |d.performanceHistory|
    ensures PerformanceCell(r.performanceHistory[i], f) == c
    ensures forall g :: g != f ==>
      PerformanceCell(r.performanceHistory[i], g) == PerformanceCell(d.performanceHistory[i], g)
    ensures forall j :: 0 <= j < |d.performanceHistory| && j != i ==>
      r.performanceHistory[j] == d.performanceHistory[j]
    ensures forall k :: k != Fields.PerformanceHistory ==> Fields.Get(r, k) == Fields.Get(d, k)
  {
    var rows := d.performanceHistory;
    Fields.Update(d, Fields.PerformanceHistory,
      Fields.PerformanceRows(rows[i := SetPerformanceCell(rows[i], f, c)]))
  }

  /** Writing back the value a cell already shows leaves the letter unchanged. */
  lemma UpdatePerformanceWithCurrentValue(d: Letter, i: nat, f: PerformanceField)
    requires i < |d.performanceHistory|
    ensures UpdatePerformance(d, i, f, PerformanceCell(d.performanceHistory[i], f)) == d
  {
    var r := UpdatePerformance(d, i, f, PerformanceCell(d.performanceHistory[i], f));
    PerformanceCellsDetermineRow(r.performanceHistory[i], d.performanceHistory[i]);
    assert r.performanceHistory == d.performanceHistory;
    Fields.FieldsDetermineLetter(r, d);
  }

  // ----------------------------------------------------------------- indicators

  /** The quarter label holds text; the four ratios hold numbers. */
  predicate IndicatorFits(f: IndicatorField, c: Cell)
  {
    if f == IndicatorQuarter then c.TextCell? else c.NumberCell?
  }

  /** `row[f]`; `IndicatorQuarter` is the row's `quarter` label. */
  function IndicatorCell(row: Indicator, f: IndicatorField): (c: Cell)
    ensures IndicatorFits(f, c)
  {
    match f
    case IndicatorQuarter => TextCell(row.quarter)
    case LiquidityRatio => NumberCell(row.liquidityRatio)
    case EquityRatio => NumberCell(row.equityRatio)
    case DependencyRatio => NumberCell(row.dependencyRatio)
    case DebtRatio => NumberCell(row.debtRatio)
  }

  /** `{ ...row, [f]: c }`. */
  function SetIndicatorCell(row: Indicator, f: IndicatorField, c: Cell): (r: Indicator)
    requires IndicatorFits(f, c)
    ensures IndicatorCell(r, f) == c
    ensures forall g :: g != f ==> IndicatorCell(r, g) == IndicatorCell(row, g)
  {
    match f
    case IndicatorQuarter => row.(quarter := c.text)
    case LiquidityRatio => row.(liquidityRatio := c.number)
    case EquityRatio => row.(equityRatio := c.number)
    case DependencyRatio => row.(dependencyRatio := c.number)
    case DebtRatio => row.(debtRatio := c.number)
  }

  /** An indicator row is its quarter label plus exactly four ratios. */
  lemma IndicatorCellsDetermineRow(a: Indicator, b: Indicator)
    requires forall f :: IndicatorCell(a, f) == IndicatorCell(b, f)
    ensures a == b
  {
    assert IndicatorCell(a, IndicatorQuarter) == IndicatorCell(b, IndicatorQuarter);
    assert IndicatorCell(a, LiquidityRatio) == IndicatorCell(b, LiquidityRatio);
    assert IndicatorCell(a, EquityRatio) == IndicatorCell(b, EquityRatio);
    assert IndicatorCell(a, DependencyRatio) == IndicatorCell(b, DependencyRatio);
    assert IndicatorCell(a, DebtRatio) == IndicatorCell(b, DebtRatio);
  }

  /** `updateIndicator(i, f, c)`: row `i` gets `c` in field `f`. */
  function UpdateIndicator(d: Letter, i: nat, f: IndicatorField, c: Cell): (r: Letter)
    requires i < |d.indicatorHistory|
    requires IndicatorFits(f, c)
    ensures |r.indicatorHistory| == |d.indicatorHistory|
    ensures IndicatorCell(r.indicatorHistory[i], f) == c
    ensures forall g :: g != f ==>
      IndicatorCell(r.indicatorHistory[i], g) == IndicatorCell(d.indicatorHistory[i], g)
    ensures forall j :: 0 <= j < |d.indicatorHistory| && j != i ==>
      r.indicatorHistory[j] == d.indicatorHistory[j]
    ensures forall k :: k != Fields.IndicatorHistory ==> Fields.Get(r, k) == Fields.Get(d, k)
  {
    var rows := d.indicatorHistory;
    Fields.Update(d, Fields.IndicatorHistory,
      Fields.IndicatorRows(rows[i := SetIndicatorCell(rows[i], f, c)]))
  }

  /** Writing back the value a cell already holds leaves the letter unchanged. */
  lemma UpdateIndicatorWithCurrentValue(d: Letter, i: nat, f: IndicatorField)
    requires i < |d.indicatorHistory|
    ensures UpdateIndicator(d, i, f, IndicatorCell(d.indicatorHistory[i], f)) == d
  {
    var r := UpdateIndicator(d, i, f, IndicatorCell(d.indicatorHistory[i], f));
    IndicatorCellsDetermineRow(r.indicatorHistory[i], d.indicatorHistory[i]);
    assert r.indicatorHistory == d.indicatorHistory;
    Fields.FieldsDetermineLetter(r, d);
  }

  // ----------------------------------------------------------------- highlights

  /** Title and subtitle hold text; the details hold a list of lines. */
  predicate HighlightFits(f: HighlightField, c: Cell)
  {
    if f == Details then c.LinesCell? else c.TextCell?
  }

  /** `card[f]`. */
  function HighlightCell(card: Highlight, f: HighlightField): (c: Cell)
    ensures HighlightFits(f, c)
  {
    match f
    case Title => TextCell(card.title)
    case Subtitle => TextCell(card.subtitle)
    case Details => LinesCell(card.details)
  }

  /** `{ ...card, [f]: c }`; the details list is replaced wholesale. */
  function SetHighlightCell(card: Highlight, f: HighlightField, c: Cell): (r: Highlight)
    requires HighlightFits(f, c)
    ensures HighlightCell(r, f) == c
    ensures forall g :: g != f ==> HighlightCell(r, g) == HighlightCell(card, g)
  {
    match f
    case Title => card.(title := c.text)
    case Subtitle => card.(subtitle := c.text)
    case Details => card.(details := c.lines)
  }

  /** A card is a single title, a single subtitle and one list of details. */
  lemma HighlightCellsDetermineCard(a: Highlight, b: Highlight)
    requires forall f :: HighlightCell(a, f) == HighlightCell(b, f)
    ensures a == b
  {
    assert HighlightCell(a, Title) == HighlightCell(b, Title);
    assert HighlightCell(a, Subtitle) == HighlightCell(b, Subtitle);
    assert HighlightCell(a, Details) == HighlightCell(b, Details);
  }

  /** `updateHighlight(i, f, c)`: card `i` gets `c` in field `f`. */
  function UpdateHighlight(d: Letter, i: nat, f: HighlightField, c: Cell): (r: Letter)
    requires i < |d.businessHighlights|
    requires HighlightFits(f, c)
    ensures |r.businessHighlights| == |d.businessHighlights|
    ensures HighlightCell(r.businessHighlights[i], f) == c
    ensures forall g :: g != f ==>
      HighlightCell(r.businessHighlights[i], g) == HighlightCell(d.businessHighlights[i], g)
    ensures forall j :: 0 <= j < |d.businessHighlights| && j != i ==>
      r.businessHighlights[j] == d.businessHighlights[j]
    ensures forall k :: k != Fields.BusinessHighlights ==> Fields.Get(r, k) == Fields.Get(d, k)
  {
    var cards := d.businessHighlights;
    Fields.Update(d, Fields.BusinessHighlights,
      Fields.HighlightCards(cards[i := SetHighlightCell(cards[i], f, c)]))
  }

  /** Writing back the value a card already holds leaves the letter unchanged. */
  lemma UpdateHighlightWithCurrentValue(d: Letter, i: nat, f: HighlightField)
    requires i < |d.businessHighlights|
    ensures UpdateHighlight(d, i, f, HighlightCell(d.businessHighlights[i], f)) == d
  {
    var r := UpdateHighlight(d, i, f, HighlightCell(d.businessHighlights[i], f));
    HighlightCellsDetermineCard(r.businessHighlights[i], d.businessHighlights[i]);
    assert r.businessHighlights == d.businessHighlights;
    Fields.FieldsDetermineLetter(r, d);
  }
}

=== FILE: scenarios.dfy ===
/** Concrete facts about the seed letter and scenarios that start from it. */
module Scenarios {
  import opened Types
  import opened Rows
  import Seed
  import Editor
  import Preview
  import App
  import SeedLines

  /** The seed performance table: seven quarters with distinct labels, the
      last one being the third quarter of 2025. */
  lemma SeedPerformanceTable()
    ensures |Seed.InitialStateKor.performanceHistory| == 7
    ensures Seed.InitialStateKor.performanceHistory[6] == Performance("'25 3Q", 16228.0, 1173.0, 7.2)
    ensures forall i, j :: 0 <= i < j < 7 ==>
      Seed.InitialStateKor.performanceHistory[i].quarter != Seed.InitialStateKor.performanceHistory[j].quarter
  {
    var rows := Seed.InitialStateKor.performanceHistory;
    forall i, j | 0 <= i < j < 7
      ensures rows[i].quarter != rows[j].quarter
    {
      assert rows[i].quarter[2] != rows[j].quarter[2] || rows[i].quarter[4] != rows[j].quarter[4];
    }
  }

  /** The seed has five indicator rows and three cards of three details each. */
  lemma SeedTableSizes()
    ensures |Seed.InitialStateKor.indicatorHistory| == 5
    ensures |Seed.InitialStateKor.businessHighlights| == 3
    ensures forall i :: 0 <= i < 3 ==> |Seed.InitialStateKor.businessHighlights[i].details| == 3
  {
  }

  /** Of the six seed summary lines exactly the third, fifth and sixth are
      styled as details. */
  lemma SeedSummaryStyles()
    ensures |Preview.Render(Seed.InitialStateKor).summary| == 6
    ensures forall i :: 0 <= i < 6 ==>
      (Preview.Render(Seed.InitialStateKor).summary[i].style == Preview.Detail <==> i == 2 || i == 4 || i == 5)
  {
    var lines := Seed.InitialStateKor.earningsSummary;
    assert !Preview.StartsWithDash(lines[0]) && !Preview.StartsWithDash(lines[1]);
    assert Preview.StartsWithDash(lines[2]) && !Preview.StartsWithDash(lines[3]);
    assert Preview.StartsWithDash(lines[4]) && Preview.StartsWithDash(lines[5]);
  }

  /** The seed has eight irAction lines; the preview shows the first six. */
  lemma SeedActionsCapped()
    ensures |Seed.InitialStateKor.irAction| == 8
    ensures Preview.Render(Seed.InitialStateKor).actions == Seed.InitialStateKor.irAction[..6]
    ensures Preview.Hidden(Seed.InitialStateKor) == Seed.InitialStateKor.irAction[6..]
  {
  }

  /** No seed line contains a newline and no seed list is empty. */
  lemma SeedIsStable()
    ensures Editor.Stable(Seed.InitialStateKor)
  {
    SeedLines.SummaryFree();
    SeedLines.SupportFree();
    SeedLines.ActionFree();
    SeedLines.Card0DetailsFree();
    SeedLines.Card1DetailsFree();
    SeedLines.Card2DetailsFree();
  }

  /** Re-submitting what any control of the seed form displays leaves the
      seed letter unchanged: every seed line list survives join-then-split. */
  lemma SeedTextAreasRoundTrip(e: Editor.Event)
    requires Editor.Issuable(Seed.InitialStateKor, e)
    requires Editor.Shows(Editor.FormOf(Seed.InitialStateKor), e)
    ensures Editor.Apply(Seed.InitialStateKor, e) == Seed.InitialStateKor
  {
    SeedIsStable();
    Editor.EchoIsNoOp(Seed.InitialStateKor, e);
  }

  /** Editing the revenue of the last seed quarter to 17000 changes exactly
      that cell. */
  lemma EditSeedRevenue()
    ensures App.LeftPane(App.Initial).Editing?
    ensures Editor.Issuable(App.Initial.data, Editor.PerformanceEdited(6, Revenue, NumberCell(17000.0)))
    ensures
      var r := App.Edit(App.Initial, Editor.PerformanceEdited(6, Revenue, NumberCell(17000.0)));
      && r.data.performanceHistory[6] == Performance("'25 3Q", 17000.0, 1173.0, 7.2)
      && r.data.performanceHistory
           == Seed.InitialStateKor.performanceHistory[6 := Performance("'25 3Q", 17000.0, 1173.0, 7.2)]
      && r.data.(performanceHistory := []) == Seed.InitialStateKor.(performanceHistory := [])
  {
    var r := App.Edit(App.Initial, Editor.PerformanceEdited(6, Revenue, NumberCell(17000.0)));
    assert PerformanceCell(r.data.performanceHistory[6], Revenue) == NumberCell(17000.0);
  }

  /** From the start-up state, a successful translation followed by switching
      back leaves the translated letter in place. */
  lemma TranslateSeedAndSwitchBack(translated: Letter)
    ensures App.SwitchToKorean(App.Translate(App.Initial, Some(translated)).next)
      == App.State(translated, App.KOR, false)
  {
    App.SwitchBackKeepsTranslation(App.Initial, translated);
  }
}

=== FILE: seed.dfy ===
/** The seed letter the application starts from (INITIAL_STATE_KOR in
    constants.tsx), built from one constant per list field. Long lines are
    written as concatenations of shorter literals; the pieces join to the
    source's text exactly. Proofs about the seed inspect these literals
    character by character, and the verifier handles short literals far
    more cheaply than long ones. */
module Seed {
  import opened Types

  const Summary: seq<string> :=
    [ "(매출액) YoY -0.7%, QoQ -4.8%",
      "(영업이익) YoY -6.4% QoQ -16.5%",
      "- 경기위축 및 하절기(여름휴가철 등) 계절적 영향으로 인한 "
        + "물량 감소",
      "(당기순이익) 3,263억원",
      "- 보유 금융자산 주가 상승에 따른 효과",
      "- QoQ MPM 이자비용 절감(약 180억 이상)" ]

  const PerformanceRows: seq<Performance> :=
    [ Performance("'24 1Q", 15884.0, 1069.0, 6.7),
      Performance("'24 2Q", 17787.0, 1406.0, 7.9),
      Performance("'24 3Q", 16342.0, 1253.0, 7.7),
      Performance("'24 4Q", 16575.0, 983.0, 5.9),
      Performance("'25 1Q", 15993.0, 1034.0, 6.5),
      Performance("'25 2Q", 17053.0, 1404.0, 8.2),
      Performance("'25 3Q", 16228.0, 1173.0, 7.2) ]

  const Card0Details: seq<string> :=
    [ "(건재사업부) 전방산업의 침체 속 수익성 방어 노력 지속",
      "(도료사업부) 자동차·선박 중심으로 매출액 및 수익성 유지",
      "(실리콘사업부) 하절기 전방산업 약세 영향 있었으나, 공장 "
        + "효율화 및 비용 절감 노력을 지속하며 수익성 개선 기반 마련" ]

  const Card1Details: seq<string> :=
    [ "작년말 이후 보유 예금을 통한 상환(400M$), 올해 7월 "
        + "타법인 주식을 활용한 EB발행을 통한 차환(650M$) 진행 "
        + "완료",
      "또한, '25년 10월 MPM 금융보증채 발행을 통한 "
        + "리파이낸싱 진행 TLB 등 차입금을 통합하여 이자비용 절감",
      "현재 MPM 차입금 700M$ + α 수준으로 개선" ]

  const Card2Details: seq<string> :=
    [ "12월부터 중국 업체 중심 가동률 감축 합의 진행 이슈 발생",
      "실제로 직후 DMC 가격 +20%상승 (장기적으로 DMC 가격 "
        + "상승 시, 기초 제품군 수익성 개선)",
      "다만, 그간 과잉 공급 및 변동성으로 지속적인 모니터링 필요" ]

  const Highlights: seq<Highlight> := [
    Highlight("3분기 실적", "계절적·일회성 요인 제외 시 견조한 흐름", Card0Details),
    Highlight("재무구조 안정화", "실리콘사업부(MPM) 유동성 개선", Card1Details),
    Highlight("유기실리콘 동향", "(시장동향) 중국 유기실리콘 기업, 감산관련", Card2Details)]

  const IndicatorRows: seq<Indicator> :=
    [ Indicator("2024 3Q", 131.3, 37.9, 40.8, 164.2),
      Indicator("2024 4Q", 123.6, 38.4, 39.6, 160.1),
      Indicator("2025 1Q", 136.7, 37.4, 41.6, 140.7),
      Indicator("2025 2Q", 120.5, 33.5, 45.3, 130.6),
      Indicator("2025 3Q", 98.4, 31.2, 46.0, 117.6) ]

  const Support: seq<string> :=
    [ "IR 전용회선 ☎ 02-3480-5000 (교환 5)",
      "IR 전용 페이지 (kccworld.irpage.co.kr)",
      "IR 미팅 예약·Q&A 섹션 활용 가능",
      "IR 정보 통합 제공, 접근성 향상" ]

  const Actions: seq<string> :=
    [ "해외 기관투자자 미팅 확대 ('24년 평균 2회/月 → "
        + "'25년 평균 4회/月)",
      "연기금 IR 미팅 정례화 (연 1회이상)",
      "애널리스트 커버리지 확대 ('24년 4명 → '25년 8명)",
      "'25년도 IR 활동 관련 예정사항 (12월)",
      "- KCC IR BOOK(2024-25) 영문본 발간",
      "- 기업가치제고계획(2025) 영문본 발간",
      "- 기관투자자 대상 2025 IR 설문조사 진행",
      "- 그 외 IR Activities 다양화를 통한 투자자 접점 "
        + "확대" ]

  const InitialStateKor: Letter := Letter(
    "Tuesday 25 NOV, 2025",
    "2025년 3분기",
    Summary,
    PerformanceRows,
    Highlights,
    IndicatorRows,
    Support,
    Actions)
}

=== FILE: seed_lines.dfy ===
/** No line of the seed letter contains a newline. The verifier decides
    `Newline !in s` for a literal `s` by looking at every character, which is
    costly for the long Korean lines of the seed; so each small lemma below
    covers one line, or two short ones, and one lemma per list collects them. */
module SeedLines {
  import opened TextLines
  import Seed

  lemma SummaryFree0()
    ensures Newline !in Seed.Summary[0]
  {
  }

  lemma SummaryFree1()
    ensures Newline !in Seed.Summary[1]
  {
  }

  lemma SummaryFree2()
    ensures Newline !in Seed.Summary[2]
  {
  }

  lemma SummaryFree3To4()
    ensures Newline !in Seed.Summary[3] && Newline !in Seed.Summary[4]
  {
  }

  lemma SummaryFree5()
    ensures Newline !in Seed.Summary[5]
  {
  }

  /** No seed summary line contains a newline. */
  lemma SummaryFree()
    ensures AllFree(Seed.Summary, Newline)
  {
    SummaryFree0();
    SummaryFree1();
    SummaryFree2();
    SummaryFree3To4();
    SummaryFree5();
  }

  lemma SupportFree0()
    ensures Newline !in Seed.Support[0]
  {
  }

  lemma SupportFree1()
    ensures Newline !in Seed.Support[1]
  {
  }

  lemma SupportFree2To3()
    ensures Newline !in Seed.Support[2] && Newline !in Seed.Support[3]
  {
  }

  /** No seed irSupport line contains a newline. */
  lemma SupportFree()
    ensures AllFree(Seed.Support, Newline)
  {
    SupportFree0();
    SupportFree1();
    SupportFree2To3();
  }

  lemma ActionFree0()
    ensures Newline !in Seed.Actions[0]
  {
  }

  lemma ActionFree1()
    ensures Newline !in Seed.Actions[1]
  {
  }

  lemma ActionFree2()
    ensures Newline !in Seed.Actions[2]
  {
  }

  lemma ActionFree3()
    ensures Newline !in Seed.Actions[3]
  {
  }

  lemma ActionFree4()
    ensures Newline !in Seed.Actions[4]
  {
  }

  lemma ActionFree5()
    ensures Newline !in Seed.Actions[5]
  {
  }

  lemma ActionFree6()
    ensures Newline !in Seed.Actions[6]
  {
  }

  lemma ActionFree7()
    ensures Newline !in Seed.Actions[7]
  {
  }

  /** No seed irAction line contains a newline. */
  lemma ActionFree()
    ensures AllFree(Seed.Actions, Newline)
  {
    ActionFree0();
    ActionFree1();
    ActionFree2();
    ActionFree3();
    ActionFree4();
    ActionFree5();
    ActionFree6();
    ActionFree7();
  }

  lemma Card0DetailsFree0()
    ensures Newline !in Seed.Card0Details[0]
  {
  }

  lemma Card0DetailsFree1()
    ensures Newline !in Seed.Card0Details[1]
  {
  }

  lemma Card0DetailsFree2()
    ensures Newline !in Seed.Card0Details[2]
  {
  }

  /** No detail line of seed card 0 contains a newline. */
  lemma Card0DetailsFree()
    ensures AllFree(Seed.Card0Details, Newline)
  {
    Card0DetailsFree0();
    Card0DetailsFree1();
    Card0DetailsFree2();
  }

  lemma Card1DetailsFree0()
    ensures Newline !in Seed.Card1Details[0]
  {
  }

  lemma Card1DetailsFree1()
    ensures Newline !in Seed.Card1Details[1]
  {
  }

  lemma Card1DetailsFree2()
    ensures Newline !in Seed.Card1Details[2]
  {
  }

  /** No detail line of seed card 1 contains a newline. */
  lemma Card1DetailsFree()
    ensures AllFree(Seed.Card1Details, Newline)
  {
    Card1DetailsFree0();
    Card1DetailsFree1();
    Card1DetailsFree2();
  }

  lemma Card2DetailsFree0()
    ensures Newline !in Seed.Card2Details[0]
  {
  }

  lemma Card2DetailsFree1()
    ensures Newline !in Seed.Card2Details[1]
  {
  }

  lemma Card2DetailsFree2()
    ensures Newline !in Seed.Card2Details[2]
  {
  }

  /** No detail line of seed card 2 contains a newline. */
  lemma Card2DetailsFree()
    ensures AllFree(Seed.Card2Details, Newline)
  {
    Card2DetailsFree0();
    Card2DetailsFree1();
    Card2DetailsFree2();
  }
}

=== FILE: text_lines.dfy ===
/** The text-area binding of the editor: a list of lines is displayed joined
    with a separator (Array.prototype.join) and the edited text is stored split
    on that separator (String.prototype.split with a one-character separator). */
module TextLines {

  /** The separator every text area of the editor uses. */
  const Newline: char := '\n'

  /** Number of occurrences of `c` in `s`. */
  function Occurrences(s: string, c: char): nat
  {
    multiset(s)[c]
  }

  /** No line of `xs` contains the separator. */
  predicate AllFree(xs: seq<string>, sep: char)
  {
    forall i :: 0 <= i < |xs| ==> sep !in xs[i]
  }

  /** `xs.join(sep)`: the lines with one separator between neighbours; the
      empty list joins to the empty text. Joining separator-free lines puts
      exactly one separator between each pair of neighbours and none elsewhere. */
  function Join(xs: seq<string>, sep: char): (r: string)
    ensures |xs| >= 1 && AllFree(xs, sep) ==> Occurrences(r, sep) == |xs| - 1
  {
    if |xs| == 0 then ""
    else if |xs| == 1 then xs[0]
    else xs[0] + [sep] + Join(xs[1..], sep)
  }

  /** `s.split(sep)`: the maximal separator-free pieces of `s`, in order. There
      is always one more piece than there are separators, so the empty text
      splits into one empty line, never into the empty list. */
  function Split(s: string, sep: char): (r: seq<string>)
    ensures |r| == Occurrences(s, sep) + 1
    ensures AllFree(r, sep)
    decreases |s|
  {
    if |s| == 0 then [""]
    else
      assert s == [s[0]] + s[1..];
      var rest := Split(s[1..], sep);
      if s[0] == sep then [""] + rest
      else [[s[0]] + rest[0]] + rest[1..]
  }

  /** Joining a line in front of a non-empty list adds one separator. */
  lemma JoinCons(a: string, xs: seq<string>, sep: char)
    requires |xs| >= 1
    ensures Join([a] + xs, sep) == a + [sep] + Join(xs, sep)
  {
    assert ([a] + xs)[1..] == xs;
  }

  /** Displaying what was stored gives back exactly the typed text. */
  lemma {:induction false} JoinSplit(s: string, sep: char)
    ensures Join(Split(s, sep), sep) == s
    decreases |s|
  {
    if |s| > 0 {
      JoinSplit(s[1..], sep);
      JoinSplitStep(s, sep);
    }
  }

  /** One step of JoinSplit: the first character extends the first line or,
      when it is the separator, starts a new one. */
  lemma JoinSplitStep(s: string, sep: char)
    requires |s| > 0
    requires Join(Split(s[1..], sep), sep) == s[1..]
    ensures Join(Split(s, sep), sep) == s
  {
    assert s == [s[0]] + s[1..];
    if s[0] == sep {
      JoinCons("", Split(s[1..], sep), sep);
    } else {
      JoinSplitExtend(s[0], Split(s[1..], sep), sep);
    }
  }

  /** Putting a non-separator in front of the first line puts it in front of
      the joined text. */
  lemma JoinSplitExtend(c: char, rest: seq<string>, sep: char)
    requires |rest| >= 1
    ensures Join([[c] + rest[0]] + rest[1..], sep) == [c] + Join(rest, sep)
  {
    var head := [c] + rest[0];
    if |rest| == 1 {
      assert [head] + rest[1..] == [head];
    } else {
      assert rest == [rest[0]] + rest[1..];
      JoinCons(rest[0], rest[1..], sep);
      JoinCons(head, rest[1..], sep);
      assert head + [sep] + Join(rest[1..], sep) == [c] + (rest[0] + [sep] + Join(rest[1..], sep));
    }
  }

  /** A separator-free text splits into itself. */
  lemma {:induction false} SplitFree(a: string, sep: char)
    requires sep !in a
    ensures Split(a, sep) == [a]
    decreases |a|
  {
    if |a| > 0 {
      assert sep !in a[1..];
      SplitFree(a[1..], sep);
      assert a == [a[0]] + a[1..];
    }
  }

  /** Splitting stops at the first separator. */
  lemma {:induction false} SplitAtSeparator(a: string, b: string, sep: char)
    requires sep !in a
    ensures Split(a + [sep] + b, sep) == [a] + Split(b, sep)
    decreases |a|
  {
    var s := a + [sep] + b;
    if |a| == 0 {
      assert s[0] == sep && s[1..] == b;
    } else {
      assert s[0] == a[0] && s[0] != sep;
      assert s[1..] == a[1..] + [sep] + b;
      assert sep !in a[1..];
      SplitAtSeparator(a[1..], b, sep);
      var rest := Split(s[1..], sep);
      assert rest == [a[1..]] + Split(b, sep);
      assert Split(s, sep) == [[s[0]] + rest[0]] + rest[1..];
      assert [s[0]] + rest[0] == a;
      assert rest[1..] == Split(b, sep);
    }
  }

  /** A non-empty list of separator-free lines survives display and re-storage
      unchanged. */
  lemma {:induction false} SplitJoin(xs: seq<string>, sep: char)
    requires |xs| >= 1
    requires AllFree(xs, sep)
    ensures Split(Join(xs, sep), sep) == xs
    decreases |xs|
  {
    if |xs| == 1 {
      SplitFree(xs[0], sep);
    } else {
      assert AllFree(xs[1..], sep);
      SplitJoin(xs[1..], sep);
      assert sep !in xs[0];
      SplitAtSeparator(xs[0], Join(xs[1..], sep), sep);
      assert xs == [xs[0]] + xs[1..];
    }
  }

  /** A text is stored as the single line it shows exactly when it holds no
      separator. */
  lemma SplitSingleIff(s: string, sep: char)
    ensures Split(s, sep) == [s] <==> sep !in s
  {
    if sep !in s {
      SplitFree(s, sep);
    }
  }

  /** The empty list is not representable through a text area: it displays as
      the empty text, which is stored back as one empty line. */
  lemma EmptyListComesBackAsOneEmptyLine(sep: char)
    ensures Join([], sep) == ""
    ensures Split(Join([], sep), sep) == [""]
  {
  }
}

=== FILE: types.dfy ===
/** The letter record edited by the IR letter generator and its row types
    (types.ts). Numeric fields are JavaScript numbers; the model keeps them as
    `real` and never does arithmetic on them. */
module Types {

  /** The outcome of the external translation call: a parsed letter, or
      nothing when the call threw. */
  datatype Option<+T> = None | Some(value: T)

  /** One quarter of the performance table: a quarter label and three figures. */
  datatype Performance = Performance(
    quarter: string,
    revenue: real,
    operatingProfit: real,
    profitRate: real)

  /** One quarter of the key-indicator table: a quarter label and four ratios. */
  datatype Indicator = Indicator(
    quarter: string,
    liquidityRatio: real,
    equityRatio: real,
    dependencyRatio: real,
    debtRatio: real)

  /** A business-highlight card: title, subtitle and ordered detail lines. */
  datatype Highlight = Highlight(
    title: string,
    subtitle: string,
    details: seq<string>)

  /** The whole letter (IRLetterState): always all eight fields. */
  datatype Letter = Letter(
    date: string,
    quarterTitle: string,
    earningsSummary: seq<string>,
    performanceHistory: seq<Performance>,
    businessHighlights: seq<Highlight>,
    indicatorHistory: seq<Indicator>,
    irSupport: seq<string>,
    irAction: seq<string>)
}
